=== FILE: README.md ===
# Library loans: a verified model of the borrowing lifecycle

This project models, in Dafny, the core of a library-loan backend: books with
an inventory of copies on the shelf, loans ("borrowings") of those books by
users, and the periodic scan for overdue loans.

- `common.dfy` (module `Common`): `Option`/`Result`, identifiers, dates as
  integer day numbers, and the decimal rendering of counts and ids that the
  tasks put into their result strings (with a round-trip proof).
- `books.dfy` (module `Books`): the `Book` record. It covers the cover choices
  `HARD`/`SOFT` with `SOFT` as the default, the 255-character title and
  author (neither may be blank), the non-negative inventory, and the daily fee in integer cents. The
  fee's decimal validator (at most 5 digits, 2 of them after the point) is
  modelled as a digit count and proved to allow exactly 0..99999 cents once
  the minimum of zero is added. Field validation (`CleanBook`) reports every
  failing constraint. The string form is "{title} by {author}".
- `borrowings.dfy` (module `Borrowings`): the `Borrowing` record and its
  `clean()` date rule. The expected return date must fall strictly after the
  borrow date, and today stands in while the row is unsaved. The module also
  has the string form, the count of a book's active loans, and the relation
  `Evolves`, which says a row only ever moves from active to returned, once.
- `library.dfy` (module `Library`): the class `Store`. It holds a
  `map<BookId, Book>` and the borrowing table as a `seq<Borrowing>`, whose
  row k has primary key k + 1. Its methods are `save()` (validate, then insert
  or overwrite) and the two endpoint operations. Creating a loan checks
  availability, decrements the inventory and saves the row, rolling the
  decrement back if the save fails validation. Returning a loan checks the
  owner and then double returns, stamps today and restocks. Both keep
  `inventory + active loans` fixed for every book. `TwoCopiesScenario`,
  `OwnerOnlyScenario` and `ReturnOnceScenario` are clients that exercise
  these contracts.
- `notifications.dfy` (module `Notifications`): the overdue query, the task
  that sends one notice per overdue loan, and the two single-send tasks. The
  messaging service is an append-only log that each task receives and returns
  extended.

Behaviour of the code worth noting:

- No notification is sent by creating or returning a loan.
- No list scoping or filtering is applied to the borrowing table.
- When creating a loan, the availability check comes first. The date rule is
  only checked when the new row is saved, after the decrement. A rejected date
  therefore still leaves the store unchanged, because the decrement is rolled
  back. But a book with no copies left reports "not available" even when the
  date is also wrong.

## Model

| member | source | states |
|---|---|---|
| `Common.DecimalText` | notifications/tasks.py:34 | the rendered count is a non-empty string of digits with no leading zero, "0" for zero |
| `Common.DecimalRoundTrip` | notifications/tasks.py:34 | reading the rendered number back gives the number itself |
| `Common.DecimalTextInjective` | notifications/tasks.py:52 | different ids or counts never render to the same text |
| `Books.CoverValue` | books/models.py:7-9 | each cover's stored value fits the 4-character column and is read back as the same cover |
| `Books.ParseCover` | books/models.py:13-16 | a stored value is rejected exactly when it is neither "HARD" nor "SOFT" |
| `Books.CoverRoundTrip` | books/models.py:7-16 | a string names cover c exactly when it is c's stored value |
| `Books.NumDigitsBound` | books/models.py:19-22 | a number has at most k significant digits exactly when it is below 10^k |
| `Books.FeeValidRange` | books/models.py:19-25 | the digit limits allow exactly the fees whose magnitude is below 1000.00, and with the minimum of 0 a valid fee is 0..99999 cents |
| `Books.CleanBook` | books/models.py:11-25 | validation succeeds exactly when title and author are non-blank and at most 255 characters, the cover is a choice or absent, inventory is at least 0 and the fee is 0..99999 cents; the record then holds the given fields with SOFT as the default cover; otherwise the error set is non-empty and names each failing constraint (blank or too long title and author, cover, inventory, fee sign, fee digits) exactly when it fails |
| `Books.CleanAcceptsValid` | books/models.py:11-25 | every valid record passes validation unchanged when its fields are submitted again |
| `Books.BookText` | books/models.py:27-28 | the string form is the title, then " by ", then the author, with length equal to both plus 4 |
| `Books.BookTextDetermines` | books/models.py:27-28 | the "{title} by {author}" form of a valid book is at most 514 characters and, with the author known, determines the title |
| `Borrowings.Clean` | borrowings/models.py:31-40 | a row is accepted exactly when its expected return date is strictly after its borrow date, or after today when the borrow date is unset; the equal day is rejected, with the single date error, whose message is "Expected return date must be after borrow date." |
| `Borrowings.CleanStoredRow` | borrowings/models.py:31-33 | validating a stored row does not depend on the day and passes exactly when the row keeps the date rule |
| `Borrowings.BorrowingText` | borrowings/models.py:28-29 | the string form is "Borrowed " then the title, then " by " and the email, then " on " and the date text, with length equal to its parts plus the fixed words |
| `Borrowings.ActiveCountAppend` | borrowings/views.py:37-40 | appending a row adds one active loan to its own book when the row is active and none to any other book |
| `Borrowings.ActiveCountClose` | borrowings/views.py:58-63 | closing an active loan in place removes one active loan from its book and changes no other book's count |
| `Borrowings.EvolvesTransitive` | borrowings/views.py:55-59 | allowed row changes compose; across any run of `CreateBorrowing` and `ReturnBorrowing` calls (each of which ensures `Evolves`) a returned loan never changes again; `save()` itself, modelled by `SaveExisting`, may overwrite any row |
| `Library.Store.SaveNew` | borrowings/models.py:42-44 | a new row is validated before it is stored: it is inserted with the next primary key and today's borrow date exactly when the date rule holds; otherwise nothing is stored and the rejection carries clean()'s date error |
| `Library.Store.SaveExisting` | borrowings/models.py:42-44 | a stored row is overwritten exactly when it still keeps the date rule; otherwise the table is unchanged and the rejection carries clean()'s date error |
| `Library.Store.CreateBorrowing` | borrowings/views.py:31-40 | missing book, then no copy left, then a return date not after today are rejected in that order, with the store unchanged; otherwise exactly one active row owned by the caller is appended and that book alone loses one copy; inventory never goes below 0, and every book's inventory plus active loans is preserved |
| `Library.Store.ReturnBorrowing` | borrowings/views.py:48-69 | a missing id, then a caller who is not the owner, then an already returned loan are rejected in that order, with no change; otherwise the row gets today's return date and nothing else changes in it, its book alone regains one copy, the answer is "Book returned successfully." with the updated row, and every book's inventory plus active loans is preserved |
| `Library.HeldAfterReturn` | borrowings/views.py:58-63 | closing an active loan and putting its copy back on the shelf leaves every book's copies on the shelf plus active loans unchanged |
| `Library.Detail` | borrowings/views.py:35-56 | a message of the view's own is given exactly for the three rejections the view raises itself: "This book is currently not available.", "You do not have access to this loan." and "This book has already been returned.", and never for a missing id or a failed date rule, which the view does not raise |
| `Library.DetailDistinguishes` | borrowings/views.py:35-56 | no two rejections share a message, so the text tells the caller which check failed |
| `Notifications.Overdue` | notifications/tasks.py:17-19 | the overdue rows are exactly those with expected return date strictly before today and no actual return date, each occurring as often as in the table |
| `Notifications.NotOverdue` | notifications/tasks.py:18 | a loan due today, or any returned loan, is never reported as overdue |
| `Notifications.NotifyNewBorrowing` | notifications/tasks.py:8-10 | exactly one message is sent, the given text unchanged |
| `Notifications.CheckOverdueBorrowings` | notifications/tasks.py:14-34 | earlier messages are kept and exactly one notice per row the overdue query yields is sent, in the order it yields them; the result is "No overdue borrowings found." exactly when nothing is overdue, and otherwise reports the number of notices sent |
| `Notifications.NotifyBookReturn` | notifications/tasks.py:38-52 | a missing id fails and sends nothing; otherwise exactly one notice about that loan is sent and the given id is reported |

## Left out

- The messaging service (notifications/services.py) makes an HTTP call to an external chat API and reads its configuration from the environment. It is modelled only as appending to a log.
- Message text: the notices carry the loan they are about, not their formatted (Ukrainian) text.
- Listing, retrieving, own-loan scoping and the `is_active`/`user_id` filters are not modelled. The endpoint's queryset is the whole table and contains no filtering code.
- Authentication, permission classes, HTTP status codes and serializers are framework behaviour and are not modelled. A missing book or loan id is modelled as the `NotFound` result.
- Library.Store.CreateBorrowing: a return date that fails the date rule is returned as `InvalidReturnDate` after the rollback. In the code, this rejection is the model layer's validation error raised inside `save()`. The endpoint's exception handling does not translate that error type, so the request ends as a server error rather than a 400 with the message. The model does not capture that difference in how the caller is answered.
- Library.Detail: gives only the messages the view's own code raises. The framework's answers to a missing id are not modelled. For a loan id this is a 404 with its own not-found detail. For a book id it is the create serializer's primary-key field error. The shape of the response body (a JSON list of messages) is not modelled either.
- The book endpoints and their permissions are not part of this model.
- Concurrency and row locking: each operation is one atomic sequential step, and a failure restores the state it started from.
- Clock: "today" is a parameter. Validation reads the current UTC date, while the borrow date stamp uses the server's local date. Both are modelled as the same day.
- Library.Store.ReturnBorrowing: because of that single day, the model proves every stored row keeps the date rule, so the validation in a return's `save()` always passes. On a server whose local date runs ahead of UTC, a loan created after local midnight with the expected date equal to the local day passes validation (against the UTC day) but is stored with its expected date equal to its borrow date. Every later return of it then fails validation, so it can never be returned. The model does not capture that case. Whether it occurs depends on time-zone settings outside the modelled files.
- Order of the overdue notices: the overdue query sets no ordering and the record declares none, so the order of the notices is unspecified. The model sends them in table order. Its contracts fix only which rows are notified and how often.
- Dates are day numbers. `Borrowings.BorrowingText` takes the borrow date's text as given, because the ISO rendering of a date is not modelled.
- The user table is not modelled: a loan holds a user id, and the string form takes the user's email as given.
- Fees are integer cents. A fee with more than two decimal places cannot be expressed, so that rejection is not modelled separately.
- The database's 32-bit upper bound on the inventory column is not modelled. A return could in principle push inventory past it.
- `Books.CoverLabel` (the display labels "Hard"/"Soft") has no contract, because it is a constant lookup.

=== FILE: books.dfy ===
/** The Book record: its cover choices, its field constraints (as the field
    validators state them) and its string form. Money is held as integer
    cents, so a fee with two decimal places is a whole number of cents. */
module Books {
  import opened Common

  /** max_length of the title and author character fields, which also may
      not be blank. */
  const MaxNameLength: nat := 255
  /** max_length of the cover character field. */
  const CoverMaxLength: nat := 4
  /** max_digits and decimal_places of the daily fee. */
  const MaxDigits: nat := 5
  const DecimalPlaces: nat := 2

  datatype Cover = Hard | Soft

  /** The cover used when none is given. */
  const DefaultCover: Cover := Soft

  /** The stored value of a cover choice; it fits the column and is read back
      as the same choice. */
  function CoverValue(c: Cover): (s: string)
    ensures |s| <= CoverMaxLength
    ensures ParseCover(s) == Some(c)
  {
    match c
    case Hard => "HARD"
    case Soft => "SOFT"
  }

  /** The human-readable label of a cover choice. */
  function CoverLabel(c: Cover): string {
    match c
    case Hard => "Hard"
    case Soft => "Soft"
  }

  /** The choices check: a stored value names a cover exactly when it is one
      of the choices' values. */
  function ParseCover(s: string): (r: Option<Cover>)
    ensures r.None? <==> s != "HARD" && s != "SOFT"
  {
    if s == "HARD" then Some(Hard)
    else if s == "SOFT" then Some(Soft)
    else None
  }

  /** Reading a stored value back is exact in both directions: a string
      names cover c exactly when it is c's stored value. */
  lemma CoverRoundTrip(s: string, c: Cover)
    ensures ParseCover(s) == Some(c) <==> s == CoverValue(c)
  {
  }

  function Pow10(k: nat): (p: nat)
    ensures p >= 1
  {
    if k == 0 then 1 else 10 * Pow10(k - 1)
  }

  function Abs(x: int): nat {
    if x < 0 then -x else x
  }

  /** Number of significant decimal digits of n (none for zero). */
  function NumDigits(n: nat): nat {
    if n == 0 then 0 else 1 + NumDigits(n / 10)
  }

  /** A number has at most k significant digits exactly when it is below 10^k. */
  lemma {:induction false} NumDigitsBound(n: nat, k: nat)
    ensures NumDigits(n) <= k <==> n < Pow10(k)
  {
    if n != 0 && k != 0 {
      NumDigitsBound(n / 10, k - 1);
      assert n / 10 < Pow10(k - 1) <==> n < 10 * Pow10(k - 1);
    } else if n != 0 {
      assert NumDigits(n) >= 1;
    }
  }

  /** The digit count the decimal validator sees for a fee of `cents`: the
      value has exactly DecimalPlaces decimals, and a value with fewer
      significant digits than decimals counts as having that many. */
  function FeeDigits(cents: int): nat {
    var n := NumDigits(Abs(cents));
    if n < DecimalPlaces then DecimalPlaces else n
  }

  /** The decimal validator: at most MaxDigits digits in all and at most
      MaxDigits - DecimalPlaces of them before the point. */
  predicate FeeDigitsOk(cents: int) {
    FeeDigits(cents) <= MaxDigits && FeeDigits(cents) - DecimalPlaces <= MaxDigits - DecimalPlaces
  }

  /** The daily fee's two validators together (the digit limits and the
      minimum of zero). */
  predicate FeeValid(cents: int) {
    cents >= 0 && FeeDigitsOk(cents)
  }

  /** The digit limits allow exactly the fees strictly between -1000.00 and
      1000.00, so a valid fee lies between 0.00 and 999.99. */
  lemma FeeValidRange(cents: int)
    ensures FeeDigitsOk(cents) <==> -100000 < cents < 100000
    ensures FeeValid(cents) <==> 0 <= cents <= 99999
  {
    NumDigitsBound(Abs(cents), MaxDigits);
    assert Pow10(MaxDigits) == 100000;
  }

  datatype Book = Book(title: string, author: string, cover: Cover, inventory: int, dailyFeeCents: int)
  {
    /** Every field constraint of the record holds. */
    predicate Valid() {
      && 1 <= |title| <= MaxNameLength
      && 1 <= |author| <= MaxNameLength
      && inventory >= 0
      && FeeValid(dailyFeeCents)
    }
  }

  /** One failing field constraint. */
  datatype FieldError =
    | TitleBlank
    | TitleTooLong
    | AuthorBlank
    | AuthorTooLong
    | CoverNotAChoice
    | InventoryNegative
    | FeeNegative
    | FeeTooManyDigits

  /** Whether the given field values break the constraint behind `e`. */
  predicate Breaks(e: FieldError, title: string, author: string, cover: Option<string>, inventory: int, feeCents: int) {
    match e
    case TitleBlank => |title| == 0
    case TitleTooLong => |title| > MaxNameLength
    case AuthorBlank => |author| == 0
    case AuthorTooLong => |author| > MaxNameLength
    case CoverNotAChoice => cover.Some? && ParseCover(cover.value).None?
    case InventoryNegative => inventory < 0
    case FeeNegative => feeCents < 0
    case FeeTooManyDigits => !FeeDigitsOk(feeCents)
  }

  const AllFieldErrors: set<FieldError> :=
    {TitleBlank, TitleTooLong, AuthorBlank, AuthorTooLong, CoverNotAChoice, InventoryNegative, FeeNegative, FeeTooManyDigits}

  /** The constraints that the given field values break, all of them. */
  function FieldErrors(title: string, author: string, cover: Option<string>, inventory: int, feeCents: int): set<FieldError> {
    set e | e in AllFieldErrors && Breaks(e, title, author, cover, inventory, feeCents)
  }

  /** Field validation of a new Book: either the record, with the cover
      defaulting to SOFT, or every constraint that fails, each exactly when
      it fails. */
  function CleanBook(title: string, author: string, cover: Option<string>, inventory: int, feeCents: int): (r: Result<Book, set<FieldError>>)
    ensures r.Ok? ==> r.value.Valid()
    ensures r.Ok? ==> r.value.title == title && r.value.author == author
                      && r.value.inventory == inventory && r.value.dailyFeeCents == feeCents
    ensures r.Ok? && cover.None? ==> r.value.cover == DefaultCover
    ensures r.Ok? && cover.Some? ==> CoverValue(r.value.cover) == cover.value
    ensures r.Ok? <==> (&& 1 <= |title| <= MaxNameLength && 1 <= |author| <= MaxNameLength
                        && (cover.None? || cover.value == "HARD" || cover.value == "SOFT")
                        && inventory >= 0 && 0 <= feeCents <= 99999)
    ensures r.Err? ==> r.error != {}
    ensures r.Err? ==> (TitleBlank in r.error <==> title == [])
    ensures r.Err? ==> (TitleTooLong in r.error <==> |title| > MaxNameLength)
    ensures r.Err? ==> (AuthorBlank in r.error <==> author == [])
    ensures r.Err? ==> (AuthorTooLong in r.error <==> |author| > MaxNameLength)
    ensures r.Err? ==> (InventoryNegative in r.error <==> inventory < 0)
    ensures r.Err? ==> (FeeNegative in r.error <==> feeCents < 0)
    ensures r.Err? ==> (FeeTooManyDigits in r.error <==> Abs(feeCents) > 99999)
    ensures r.Err? ==> (CoverNotAChoice in r.error <==> cover.Some? && cover.value != "HARD" && cover.value != "SOFT")
  {
    FeeValidRange(feeCents);
    var errors := FieldErrors(title, author, cover, inventory, feeCents);
    if errors != {} then Err(errors)
    else
      assert forall e :: e in AllFieldErrors ==> e !in errors;
      var c := if cover.None? then DefaultCover else ParseCover(cover.value).value;
      Ok(Book(title, author, c, inventory, feeCents))
  }

  /** Every valid record passes validation unchanged when its fields are
      submitted again. */
  lemma CleanAcceptsValid(b: Book)
    requires b.Valid()
    ensures CleanBook(b.title, b.author, Some(CoverValue(b.cover)), b.inventory, b.dailyFeeCents) == Ok(b)
  {
    FeeValidRange(b.dailyFeeCents);
  }

  /** The string form "{title} by {author}". */
  function BookText(b: Book): (s: string)
    ensures |s| == |b.title| + |b.author| + 4
    ensures s[..|b.title|] == b.title && s[|b.title|..|b.title| + 4] == " by "
    ensures s[|b.title| + 4..] == b.author
  {
    b.title + " by " + b.author
  }

  /** The string form of a valid record is at most 514 characters, and with
      the author known it determines the title. */
  lemma BookTextDetermines(a: Book, b: Book)
    requires a.Valid()
    requires BookText(a) == BookText(b) && a.author == b.author
    ensures a.title == b.title
    ensures |BookText(a)| <= 2 * MaxNameLength + 4
  {
    var s := BookText(a);
    assert a.title == s[..|s| - |a.author| - 4];
    assert b.title == BookText(b)[..|s| - |b.author| - 4];
  }
}

=== FILE: borrowings.dfy ===
/** The Borrowing record: its fields, the date rule its validation enforces,
    its string form, and the facts about active loans that the inventory
    bookkeeping of the store rests on. */
module Borrowings {
  import opened Common

  /** One persisted loan. The borrow date is stamped by the system when the
      row is first saved; the loan is active while it has no actual return
      date. It refers to exactly one book and exactly one user. */
  datatype Borrowing = Borrowing(
    id: BorrowingId,
    borrowDate: Day,
    expectedReturnDate: Day,
    actualReturnDate: Option<Day>,
    book: BookId,
    user: UserId)

  predicate IsActive(b: Borrowing) {
    b.actualReturnDate.None?
  }

  /** The date rule holds of a stored row. */
  predicate DatesOrdered(b: Borrowing) {
    b.expectedReturnDate > b.borrowDate
  }

  /** The error clean() raises; it carries the message below. */
  datatype ValidationError = ExpectedNotAfterBorrow

  function ValidationText(e: ValidationError): string {
    match e
    case ExpectedNotAfterBorrow => "Expected return date must be after borrow date."
  }

  /** clean(): the expected return date must come strictly after the borrow
      date; a row not yet saved has no borrow date, and then today stands in
      for it. */
  function Clean(borrowDate: Option<Day>, expected: Day, today: Day): (r: Option<ValidationError>)
    ensures borrowDate.None? ==> (r.None? <==> expected > today)
    ensures borrowDate.Some? ==> (r.None? <==> expected > borrowDate.value)
    ensures r.Some? ==> r.value == ExpectedNotAfterBorrow
                        && ValidationText(r.value) == "Expected return date must be after borrow date."
  {
    var effective := if borrowDate.Some? then borrowDate.value else today;
    if expected <= effective then Some(ExpectedNotAfterBorrow) else None
  }

  /** Validating a stored row again never depends on the day it happens, and
      it passes exactly when the row keeps the date rule. */
  lemma CleanStoredRow(b: Borrowing, today: Day, later: Day)
    ensures Clean(Some(b.borrowDate), b.expectedReturnDate, today).None? <==> DatesOrdered(b)
    ensures Clean(Some(b.borrowDate), b.expectedReturnDate, today) == Clean(Some(b.borrowDate), b.expectedReturnDate, later)
  {
  }

  /** The string form "Borrowed {book title} by {user email} on {borrow date}",
      given the book's title, the user's email and the text of the date. */
  function BorrowingText(title: string, email: string, dateText: string): (s: string)
    ensures |s| == |title| + |email| + |dateText| + 17
    ensures s[..9] == "Borrowed " && s[9..9 + |title|] == title
    ensures s[9 + |title|..|s| - |dateText| - 4] == " by " + email
    ensures s[|s| - |dateText| - 4..] == " on " + dateText
  {
    "Borrowed " + title + " by " + email + " on " + dateText
  }

  /** Number of active loans of book k among the rows. */
  function ActiveCount(rows: seq<Borrowing>, k: BookId): (n: nat)
    ensures n <= |rows|
  {
    if rows == [] then 0
    else
      var last := rows[|rows| - 1];
      ActiveCount(rows[..|rows| - 1], k) + (if IsActive(last) && last.book == k then 1 else 0)
  }

  /** Appending a row adds one active loan to its own book if it is active,
      and none to any other book. */
  lemma ActiveCountAppend(rows: seq<Borrowing>, b: Borrowing, k: BookId)
    ensures ActiveCount(rows + [b], k) == ActiveCount(rows, k) + (if IsActive(b) && b.book == k then 1 else 0)
  {
    assert (rows + [b])[..|rows|] == rows;
  }

  /** Closing an active loan in place (same book, now returned) removes one
      active loan from its book and changes no other book's count. */
  lemma {:induction false} ActiveCountClose(rows: seq<Borrowing>, j: nat, closed: Borrowing, k: BookId)
    requires j < |rows|
    requires IsActive(rows[j]) && !IsActive(closed) && closed.book == rows[j].book
    ensures ActiveCount(rows[j := closed], k) + (if rows[j].book == k then 1 else 0) == ActiveCount(rows, k)
  {
    var n := |rows|;
    var updated := rows[j := closed];
    if j == n - 1 {
      assert updated[..n - 1] == rows[..n - 1];
    } else {
      assert updated[..n - 1] == rows[..n - 1][j := closed];
      ActiveCountClose(rows[..n - 1], j, closed, k);
    }
  }

  /** One row's allowed change over time: none, or the single transition
      from active to returned, touching nothing but the return date. */
  predicate RowStep(before: Borrowing, after: Borrowing) {
    before == after
    || (IsActive(before) && !IsActive(after)
        && after == before.(actualReturnDate := after.actualReturnDate))
  }

  /** The table only grows, and each existing row takes an allowed step. */
  predicate Evolves(before: seq<Borrowing>, after: seq<Borrowing>) {
    |before| <= |after| && forall i :: 0 <= i < |before| ==> RowStep(before[i], after[i])
  }

  /** Allowed changes compose: however many operations run, a loan is
      returned at most once and a returned loan never changes again. */
  lemma EvolvesTransitive(a: seq<Borrowing>, b: seq<Borrowing>, c: seq<Borrowing>)
    requires Evolves(a, b) && Evolves(b, c)
    ensures Evolves(a, c)
    ensures forall i :: 0 <= i < |a| && !IsActive(a[i]) ==> c[i] == a[i]
  {
  }
}

=== FILE: common.dfy ===
/** Shared vocabulary of the library-loan model: optional values and results,
    identifiers, calendar days, and the decimal rendering of counts and ids
    that the notification tasks put into their result strings. */
module Common {

  datatype Option<+T> = None | Some(value: T)

  datatype Result<+T, +E> = Ok(value: T) | Err(error: E)

  /** A calendar date, as a day number (one more than the day before). */
  type Day = int

  type BookId = nat
  type UserId = nat
  /** Primary key of a borrowing row; the first row gets 1. */
  type BorrowingId = nat

  predicate IsDigit(c: char) {
    '0' <= c <= '9'
  }

  function DigitChar(d: nat): (c: char)
    requires d < 10
    ensures IsDigit(c)
  {
    "0123456789"[d]
  }

  function DigitValue(c: char): (d: nat)
    requires IsDigit(c)
    ensures d < 10 && DigitChar(d) == c
  {
    (c as int - '0' as int) as nat
  }

  /** The text Python's str() gives for a non-negative int: its decimal
      digits, most significant first, without leading zeros. */
  function DecimalText(n: nat): (s: string)
    ensures |s| >= 1
    ensures forall i :: 0 <= i < |s| ==> IsDigit(s[i])
    ensures n > 0 ==> s[0] != '0'
    ensures n == 0 ==> s == "0"
  {
    if n < 10 then [DigitChar(n)] else DecimalText(n / 10) + [DigitChar(n % 10)]
  }

  /** The number a string of decimal digits denotes. */
  function DecimalValue(s: string): nat
    requires forall i :: 0 <= i < |s| ==> IsDigit(s[i])
  {
    if s == [] then 0 else DecimalValue(s[..|s| - 1]) * 10 + DigitValue(s[|s| - 1])
  }

  /** Reading back the rendered number gives the number: the rendering loses
      nothing, so a count or an id can be recovered from the message. */
  lemma {:induction false} DecimalRoundTrip(n: nat)
    ensures DecimalValue(DecimalText(n)) == n
  {
    if n >= 10 {
      var s := DecimalText(n);
      assert s[..|s| - 1] == DecimalText(n / 10);
      DecimalRoundTrip(n / 10);
    }
  }

  /** Two different numbers never render to the same text. */
  lemma DecimalTextInjective(m: nat, n: nat)
    requires DecimalText(m) == DecimalText(n)
    ensures m == n
  {
    DecimalRoundTrip(m);
    DecimalRoundTrip(n);
  }
}

=== FILE: library.dfy ===
/** The store of books and loans, and the two operations of the borrowings
    endpoint that change it: creating a loan and returning one. Each runs as
    one atomic step; a failure part-way restores the state it started from. */
module Library {
  import opened Common
  import opened Books
  import opened Borrowings

  /** Why an operation was rejected. */
  datatype Error =
    | NotFound           // the book or the loan id does not exist
    | Unavailable        // no copy of the book is left
    | InvalidReturnDate(reason: ValidationError)  // the row fails clean(), raised by save
    | Forbidden          // the caller does not own the loan
    | AlreadyReturned    // the loan has been returned before

  const UnavailableText: string := "This book is currently not available."
  const ForbiddenText: string := "You do not have access to this loan."
  const AlreadyReturnedText: string := "This book has already been returned."

  /** The message the endpoint's own code raises for a rejection: one for
      each of the three checks the view makes itself. A missing id is
      rejected by the framework's lookup, not by a check of the view's own,
      and a failed date rule is raised inside save() by the record; neither
      has a message of the view's own, so both map to None. */
  function Detail(e: Error): (r: Option<string>)
    ensures r.Some? <==> (e.Unavailable? || e.Forbidden? || e.AlreadyReturned?)
    ensures e.Unavailable? ==> r == Some(UnavailableText)
    ensures e.Forbidden? ==> r == Some(ForbiddenText)
    ensures e.AlreadyReturned? ==> r == Some(AlreadyReturnedText)
    ensures r.Some? ==> |r.value| > 0
  {
    match e
    case Unavailable => Some(UnavailableText)
    case Forbidden => Some(ForbiddenText)
    case AlreadyReturned => Some(AlreadyReturnedText)
    case NotFound => None
    case InvalidReturnDate(_) => None
  }

  /** Each message the view raises names one rejection only, so the caller
      can tell from the text which check failed. */
  lemma DetailDistinguishes(e1: Error, e2: Error)
    requires Detail(e1).Some? && Detail(e1) == Detail(e2)
    ensures e1 == e2
  {
  }

  const ReturnedMessage: string := "Book returned successfully."

  /** The answer to a successful return: the message and the updated row. */
  datatype ReturnResponse = ReturnResponse(message: string, data: Borrowing)

  /** Consistency of a store's contents: every book keeps its field
      constraints, and every row has the next primary key, refers to a
      stored book and keeps the date rule. */
  predicate TableValid(books: map<BookId, Book>, rows: seq<Borrowing>) {
    && (forall k :: k in books ==> books[k].Valid())
    && (forall i :: 0 <= i < |rows| ==>
          rows[i].id == i + 1 && rows[i].book in books && DatesOrdered(rows[i]))
  }

  /** Copies of book k in the store's hands: on the shelf plus out on loan.
      The operations keep this number fixed for every book. */
  function Held(books: map<BookId, Book>, rows: seq<Borrowing>, k: BookId): int
    requires k in books
  {
    books[k].inventory + ActiveCount(rows, k)
  }

  /** Closing an active loan and putting its copy back on the shelf keeps
      every book's held count. */
  lemma HeldAfterReturn(books: map<BookId, Book>, rows: seq<Borrowing>, j: nat, closed: Borrowing)
    requires j < |rows| && rows[j].book in books
    requires IsActive(rows[j]) && !IsActive(closed) && closed.book == rows[j].book
    ensures var b := books[closed.book];
            forall k :: k in books ==>
              Held(books[closed.book := b.(inventory := b.inventory + 1)], rows[j := closed], k) == Held(books, rows, k)
  {
    var b := books[closed.book];
    forall k | k in books
      ensures Held(books[closed.book := b.(inventory := b.inventory + 1)], rows[j := closed], k) == Held(books, rows, k)
    {
      ActiveCountClose(rows, j, closed, k);
    }
  }

  class Store {
    var books: map<BookId, Book>
    var borrowings: seq<Borrowing>

    ghost predicate Valid()
      reads this
    {
      TableValid(books, borrowings)
    }

    constructor (initial: map<BookId, Book>)
      requires forall k :: k in initial ==> initial[k].Valid()
      ensures Valid()
      ensures books == initial && borrowings == []
    {
      books := initial;
      borrowings := [];
    }

    /** Borrowing.save() for a row not yet stored: validate first (the borrow
        date is still unset, so today stands in for it), then insert the row
        with the next primary key and today as its borrow date. */
    method SaveNew(expected: Day, bookId: BookId, user: UserId, today: Day) returns (r: Result<Borrowing, Error>)
      requires Valid()
      requires bookId in books
      modifies this`borrowings
      ensures Valid()
      ensures r.Ok? <==> Clean(None, expected, today).None?
      ensures r.Ok? ==> r.value == Borrowing(|old(borrowings)| + 1, today, expected, None, bookId, user)
                        && borrowings == old(borrowings) + [r.value]
      ensures r.Err? ==> r.error == InvalidReturnDate(ExpectedNotAfterBorrow) && borrowings == old(borrowings)
    {
      var invalid := Clean(None, expected, today);
      if invalid.Some? {
        return Err(InvalidReturnDate(invalid.value));
      }
      var row := Borrowing(|borrowings| + 1, today, expected, None, bookId, user);
      borrowings := borrowings + [row];
      r := Ok(row);
    }

    /** Borrowing.save() for a stored row: validate first against the row's
        own borrow date, then overwrite the row with that primary key. */
    method SaveExisting(b: Borrowing, today: Day) returns (r: Result<Borrowing, Error>)
      requires Valid()
      requires 1 <= b.id <= |borrowings| && b.book in books
      modifies this`borrowings
      ensures Valid()
      ensures r.Ok? <==> DatesOrdered(b)
      ensures r.Ok? ==> r.value == b && borrowings == old(borrowings)[b.id - 1 := b]
      ensures r.Err? ==> r.error == InvalidReturnDate(ExpectedNotAfterBorrow) && borrowings == old(borrowings)
    {
      var invalid := Clean(Some(b.borrowDate), b.expectedReturnDate, today);
      if invalid.Some? {
        return Err(InvalidReturnDate(invalid.value));
      }
      borrowings := borrowings[b.id - 1 := b];
      r := Ok(b);
    }

    /** Creating a loan of book `bookId` for `user`, due back on `expected`.
        A book with no copy left is refused; otherwise one copy is taken off
        the shelf and the new row is saved; if saving fails the date rule,
        the whole step is rolled back. */
    method CreateBorrowing(user: UserId, bookId: BookId, expected: Day, today: Day) returns (r: Result<Borrowing, Error>)
      requires Valid()
      modifies this
      ensures Valid()
      ensures bookId !in old(books) ==> r == Err(NotFound)
      ensures bookId in old(books) && old(books)[bookId].inventory < 1 ==> r == Err(Unavailable)
      ensures bookId in old(books) && old(books)[bookId].inventory >= 1 && expected <= today ==> r == Err(InvalidReturnDate(ExpectedNotAfterBorrow))
      ensures r.Ok? <==> bookId in old(books) && old(books)[bookId].inventory >= 1 && expected > today
      ensures r.Err? ==> books == old(books) && borrowings == old(borrowings)
      ensures r.Ok? ==> && r.value == Borrowing(|old(borrowings)| + 1, today, expected, None, bookId, user)
                        && borrowings == old(borrowings) + [r.value]
                        && books == old(books)[bookId := old(books)[bookId].(inventory := old(books)[bookId].inventory - 1)]
      ensures books.Keys == old(books).Keys
      ensures forall k :: k in books ==> Held(books, borrowings, k) == Held(old(books), old(borrowings), k)
      ensures Evolves(old(borrowings), borrowings)
    {
      if bookId !in books {
        return Err(NotFound);
      }
      // The atomic block starts here: remember the state to roll back to.
      var booksBefore, borrowingsBefore := books, borrowings;
      var book := books[bookId];
      if book.inventory < 1 {
        return Err(Unavailable);
      }
      books := books[bookId := book.(inventory := book.inventory - 1)];
      var saved := SaveNew(expected, bookId, user, today);
      if saved.Err? {
        books, borrowings := booksBefore, borrowingsBefore;
        return Err(saved.error);
      }
      r := saved;
      forall k | k in books
        ensures Held(books, borrowings, k) == Held(booksBefore, borrowingsBefore, k)
      {
        ActiveCountAppend(borrowingsBefore, saved.value, k);
      }
    }

    /** Returning loan `id` on behalf of `requester`. Only the loan's own
        user may return it (there is no exemption for staff), and only
        while it is active; the return stamps today's date on the row, saves
        it, and puts the copy back on the shelf. */
    method ReturnBorrowing(requester: UserId, id: BorrowingId, today: Day) returns (r: Result<ReturnResponse, Error>)
      requires Valid()
      modifies this
      ensures Valid()
      ensures !(1 <= id <= |old(borrowings)|) ==> r == Err(NotFound)
      ensures 1 <= id <= |old(borrowings)| && old(borrowings)[id - 1].user != requester ==> r == Err(Forbidden)
      ensures (1 <= id <= |old(borrowings)| && old(borrowings)[id - 1].user == requester
               && !IsActive(old(borrowings)[id - 1])) ==> r == Err(AlreadyReturned)
      ensures r.Ok? <==> 1 <= id <= |old(borrowings)| && old(borrowings)[id - 1].user == requester
                         && IsActive(old(borrowings)[id - 1])
      ensures r.Err? ==> books == old(books) && borrowings == old(borrowings)
      ensures r.Ok? ==> && r.value.message == ReturnedMessage
                        && r.value.data == old(borrowings)[id - 1].(actualReturnDate := Some(today))
                        && borrowings == old(borrowings)[id - 1 := r.value.data]
                        && r.value.data.book in old(books)
                        && books == old(books)[r.value.data.book := old(books)[r.value.data.book].(inventory := old(books)[r.value.data.book].inventory + 1)]
      ensures books.Keys == old(books).Keys
      ensures forall k :: k in books ==> Held(books, borrowings, k) == Held(old(books), old(borrowings), k)
      ensures Evolves(old(borrowings), borrowings)
    {
      if !(1 <= id <= |borrowings|) {
        return Err(NotFound);
      }
      var booksBefore, borrowingsBefore := books, borrowings;
      var loan := borrowings[id - 1];
      if requester != loan.user {
        return Err(Forbidden);
      }
      if loan.actualReturnDate.Some? {
        return Err(AlreadyReturned);
      }
      var returned := loan.(actualReturnDate := Some(today));
      var saved := SaveExisting(returned, today);
      // Every stored row keeps the date rule, so saving the returned row
      // always passes validation.
      assert saved.Ok?;
      var book := books[loan.book];
      books := books[loan.book := book.(inventory := book.inventory + 1)];
      r := Ok(ReturnResponse(ReturnedMessage, returned));
      HeldAfterReturn(booksBefore, borrowingsBefore, id - 1, returned);
    }
  }

  /** A valid book with `copies` copies on the shelf. */
  function SampleBook(copies: nat): (b: Book)
    ensures b.Valid() && b.inventory == copies
  {
    FeeValidRange(550);
    Book("Book 1", "Author 1", Hard, copies, 550)
  }

  /** A book with two copies: a loan due back on the day it is made is
      refused and changes nothing; two loans take both copies, and a third
      is refused whatever its return date. */
  method TwoCopiesScenario() {
    var store := new Store(map[1 := SampleBook(2)]);
    var dueToday := store.CreateBorrowing(3, 1, 10, 10);
    assert dueToday == Err(InvalidReturnDate(ExpectedNotAfterBorrow)) && store.books[1].inventory == 2;
    var first := store.CreateBorrowing(1, 1, 11, 10);
    var second := store.CreateBorrowing(2, 1, 12, 10);
    assert first.Ok? && second.Ok? && store.books[1].inventory == 0;
    var third := store.CreateBorrowing(3, 1, 12, 10);
    assert third == Err(Unavailable);
    var early := store.CreateBorrowing(3, 1, 10, 10);
    assert early == Err(Unavailable);
  }

  /** Only the owner of a loan may return it; anyone else is refused and
      nothing changes. */
  method OwnerOnlyScenario() {
    var store := new Store(map[1 := SampleBook(1)]);
    var loan := store.CreateBorrowing(1, 1, 11, 10);
    assert loan.Ok? && store.books[1].inventory == 0;
    var wrongUser := store.ReturnBorrowing(2, 1, 11);
    assert wrongUser == Err(Forbidden) && store.books[1].inventory == 0;
  }

  /** A loan comes back once and only once. */
  method ReturnOnceScenario() {
    var store := new Store(map[1 := SampleBook(1)]);
    var loan := store.CreateBorrowing(1, 1, 11, 10);
    assert loan.Ok? && store.borrowings == [Borrowing(1, 10, 11, None, 1, 1)];
    var back := store.ReturnBorrowing(1, 1, 11);
    assert back.Ok? && back.value.message == ReturnedMessage && store.books[1].inventory == 1;
    assert store.borrowings == [Borrowing(1, 10, 11, Some(11), 1, 1)];
    var again := store.ReturnBorrowing(1, 1, 12);
    assert again == Err(AlreadyReturned) && store.books[1].inventory == 1;
  }
}

=== FILE: notifications.dfy ===
/** The notification tasks: the overdue scan and the two single sends. The
    messaging service is modelled as an append-only log of messages that each
    task receives and hands back extended; what a message says is abstracted
    to the loan it is about. */
module Notifications {
  import opened Common
  import opened Borrowings

  datatype Message =
    | Text(text: string)               // a message forwarded as given
    | OverdueNotice(loan: Borrowing)   // "this loan is overdue"
    | ReturnNotice(loan: Borrowing)    // "this loan was returned"

  const NoneOverdueText: string := "No overdue borrowings found."

  /** A loan is overdue when it is still out and its expected return date
      lies strictly before today. */
  predicate IsOverdue(b: Borrowing, today: Day) {
    b.expectedReturnDate < today && IsActive(b)
  }

  /** The overdue query: the rows that are overdue today, each exactly as
      often as it occurs in the table. The query itself fixes no order; the
      model takes table order. */
  function Overdue(table: seq<Borrowing>, today: Day): (r: seq<Borrowing>)
    ensures |r| <= |table|
    ensures forall b :: b in r <==> b in table && IsOverdue(b, today)
    ensures forall b :: multiset(r)[b] == (if IsOverdue(b, today) then multiset(table)[b] else 0)
  {
    if table == [] then []
    else
      assert table == [table[0]] + table[1..];
      (if IsOverdue(table[0], today) then [table[0]] else []) + Overdue(table[1..], today)
  }

  /** A loan due today is not yet overdue, and a returned loan never is,
      whatever its dates. */
  lemma NotOverdue(table: seq<Borrowing>, b: Borrowing, today: Day)
    requires b.expectedReturnDate >= today || !IsActive(b)
    ensures b !in Overdue(table, today)
  {
  }

  /** notify_new_borrowing: one send of the message, unchanged. */
  method NotifyNewBorrowing(message: string, log: seq<Message>) returns (sent: seq<Message>)
    ensures sent == log + [Text(message)]
  {
    sent := log + [Text(message)];
  }

  /** One overdue notice per loan, in the given order. */
  function Notices(loans: seq<Borrowing>): (r: seq<Message>)
    ensures |r| == |loans|
    ensures forall j :: 0 <= j < |loans| ==> r[j] == OverdueNotice(loans[j])
  {
    seq(|loans|, j requires 0 <= j < |loans| => OverdueNotice(loans[j]))
  }

  /** check_overdue_borrowings: if nothing is overdue, send nothing and say
      so; otherwise send one notice per overdue loan, in the order the query
      yields them, and report how many were sent. */
  method CheckOverdueBorrowings(table: seq<Borrowing>, today: Day, log: seq<Message>) returns (sent: seq<Message>, result: string)
    ensures sent == log + Notices(Overdue(table, today))
    ensures result == NoneOverdueText <==> Overdue(table, today) == []
    ensures Overdue(table, today) != [] ==>
              result == "Notified about " + DecimalText(|Overdue(table, today)|) + " overdue borrowings."
  {
    var overdue := Overdue(table, today);
    sent := log;
    if overdue == [] {
      return sent, NoneOverdueText;
    }
    var i := 0;
    while i < |overdue|
      invariant 0 <= i <= |overdue|
      invariant sent == log + Notices(overdue[..i])
    {
      sent := sent + [OverdueNotice(overdue[i])];
      i := i + 1;
      assert Notices(overdue[..i]) == Notices(overdue[..i - 1]) + [OverdueNotice(overdue[i - 1])];
    }
    assert overdue[..i] == overdue;
    result := "Notified about " + DecimalText(|overdue|) + " overdue borrowings.";
  }

  /** notify_book_return: look the loan up by primary key (the table's row
      with id k is its k-th row); a missing id sends nothing and fails;
      otherwise one notice is sent and the given id is reported. */
  method NotifyBookReturn(id: BorrowingId, table: seq<Borrowing>, log: seq<Message>) returns (sent: seq<Message>, r: Result<string, BorrowingId>)
    requires forall i :: 0 <= i < |table| ==> table[i].id == i + 1
    ensures !(1 <= id <= |table|) ==> r == Err(id) && sent == log
    ensures 1 <= id <= |table| ==> && sent == log + [ReturnNotice(table[id - 1])]
                                   && r == Ok("Return notification sent for borrowing " + DecimalText(id))
  {
    if !(1 <= id <= |table|) {
      return log, Err(id);
    }
    var loan := table[id - 1];
    sent := log + [ReturnNotice(loan)];
    r := Ok("Return notification sent for borrowing " + DecimalText(loan.id));
  }
}
